=== FILE: README.md ===
# Workbook manager and change log, modelled in Dafny

This project models the in-memory core of a spreadsheet data-migration
utility. A `WorkbookManager` holds a workbook as named sheets (pandas
DataFrames). It creates sheets, updates single cells, appends rows and looks
up rows matching column conditions. Every cell update is mirrored into a
`LogManager`, a nested map moment → sheet → process → payload that merges new
payloads into existing buckets.

The model is functional. A workbook is an immutable `Workbook` value. Each
Python method that can raise becomes a function or method that returns a `Result`: `Ok`
with the new workbook or answer, or `Err` with the exception the source would
raise. Two cannot raise in this model: `FromDefinitions` returns the
`Workbook` itself, and `SaveChanges` returns a `SavePlan` describing what is
written.
`get_entries` and the mask it builds are methods whose loops mirror the
source's loops. The loop in `row_follows_condition` is a recursive function
over the conditions.

Modules:

- `Base`: `Option` and `Result`.
- `Cells`: the cell value (`Null | Str | Num | Bool | Timestamp`), pandas
  equality (`Matches`: a missing value equals nothing), ordered dicts as
  association lists, rows, and pandas' column union `AddNew`.
- `Tables`: a sheet as an ordered column list plus an ordered row list. It
  covers `pd.DataFrame(records)`, `pd.DataFrame(columns=...)`, `iat` writes,
  `pd.concat` row appends, and the conjunctive row filter.
- `LogManager`: the generic nested log with `append_logs` and its merge law.
- `Paths`: POSIX `pathlib` parsing and `os.path.join`, used to derive the log
  file's path from the workbook's path.
- `WorkbookManager`: the class's operations over a `Workbook`.

Behaviour worth noting:

- `save_changes` only prints a notice when every sheet is empty. It still writes
  every sheet. `SaveChanges.written` is therefore all the sheets in every case.
- `append_row` does not check that the sheet exists. `self.df[sheet]` raises
  KeyError, modelled as `Err(UnknownSheet(sheet))`.
- An empty frame is one with no rows or no columns (`DataFrame.empty`). This
  applies both to `save_changes`' notice and to `get_entries`. A sheet built
  from `[{}]` has one row and no columns, so `get_entries` with empty conditions
  answers `None` on it; any condition names a missing column and raises KeyError.

Assumption: `WorkbookLogManager` is not part of this model. Its `append_log`
is taken to call `append_logs(sheet, process, {(row, col): (previous, new)})`
of the `LogManager` shown. `UpdateCell` merges exactly that payload into the
attached log.

## Model

| member | source | states |
|---|---|---|
| LogManager.Load | cayuse_feedback_modifier/src/classes/LogManager.py:6-12 | the log starts as the parsed file when one exists and as the empty map otherwise |
| LogManager.AppendLogs | cayuse_feedback_modifier/src/classes/LogManager.py:16-34 | the bucket becomes old bucket updated by the payload; payload keys get payload values, other keys keep theirs; a new moment holds exactly `{sheet: {process: payload}}`; a new sheet level is exactly `{process: payload}`; a new process is added beside its siblings; other sheets and moments are unchanged; moments grow by at most the current one |
| LogManager.AppendLogsFrame | cayuse_feedback_modifier/src/classes/LogManager.py:20-34 | no bucket other than `(moment, sheet, process)` changes |
| LogManager.AppendLogsIdempotent | cayuse_feedback_modifier/src/classes/LogManager.py:28-31 | appending the same payload twice at the same moment and key equals appending it once |
| LogManager.AppendLogsTwiceMerges | cayuse_feedback_modifier/src/classes/LogManager.py:20-31 | for two payloads with disjoint keys, two appends in one second for one sheet and process make one bucket holding both payloads, in either order; `AppendAllAccumulates` covers any payloads |
| LogManager.AppendAllAccumulates | cayuse_feedback_modifier/src/classes/LogManager.py:16-34 | any number of appends in one second accumulate into one bucket, each payload updating it in turn; other buckets are untouched |
| LogManager.AppendLogsGrows | cayuse_feedback_modifier/src/classes/LogManager.py:20-34 | no key recorded in any bucket is lost by an append |
| Cells.AddNew | src/packages/workbook_manager/workbook_manager.py:76-78 | pandas' column union keeps the existing columns as a prefix, contains exactly the old and new names, and never repeats a name when the existing columns are distinct |
| Cells.AddNewOrder | src/packages/workbook_manager/workbook_manager.py:76-78 | the union adds only names not yet present, and they follow the order of their first occurrence in the dict's keys, which together with `AddNew`'s contract fixes the column list |
| Cells.AddNewPresent | src/packages/workbook_manager/workbook_manager.py:76-78 | appending a dict whose keys are all columns already adds no column |
| Cells.AddNewFresh | src/packages/workbook_manager/workbook_manager.py:44 | when none of the keys is present yet, the union appends the keys in their own order |
| Tables.UnionKeys | src/packages/workbook_manager/workbook_manager.py:44 | the columns inferred from row dicts are distinct and are exactly the keys found in some record |
| Tables.UnionKeysUniform | src/packages/workbook_manager/workbook_manager.py:44 | row dicts that all have the same keys give exactly those keys as columns, in that order |
| Tables.UnionKeysPrefix | src/packages/workbook_manager/workbook_manager.py:44 | the columns of earlier records keep their order and place as later records are added (first-seen order) |
| Tables.UnionKeysStartsWithFirst | src/packages/workbook_manager/workbook_manager.py:44 | the first record's keys lead the column list in that record's order |
| Tables.FromRecords | src/packages/workbook_manager/workbook_manager.py:44 | `pd.DataFrame(records)` is well formed, its columns are the keys' union in first-seen order, it has one row per record in order, and each row holds its record's value or a missing value |
| Tables.FromColumns | src/packages/workbook_manager/workbook_manager.py:46 | `pd.DataFrame(columns=names)` has exactly those columns and no rows |
| Tables.SetCell | src/packages/workbook_manager/workbook_manager.py:61-62 | an `iat` write sets the cell and keeps the shape, every other row, and every other column of that row; well-formedness is preserved |
| Tables.SetCellOthersUnchanged | src/packages/workbook_manager/workbook_manager.py:62 | with distinct column names, every other position keeps its value |
| Tables.AppendRecord | src/packages/workbook_manager/workbook_manager.py:76-78 | `pd.concat` adds one last row with the dict's values, extends the columns by pandas' union with the dict's keys, and leaves earlier rows' values unchanged (new columns read missing) |
| Tables.MatchingRows | src/packages/workbook_manager/workbook_manager.py:121-125 | the filtered rows all meet the conditions and come from the table; the result is empty iff no row meets them |
| Tables.MatchingRowsConcat | src/packages/workbook_manager/workbook_manager.py:121-133 | filtering distributes over concatenation, so matches keep the table's order |
| Tables.MatchingRowsSingle | src/packages/workbook_manager/workbook_manager.py:121-125 | a single row is kept iff it meets every condition |
| Tables.MatchingRowsHead | src/packages/workbook_manager/workbook_manager.py:127-133 | the first filtered row is the first row in table order that meets the conditions |
| Tables.InvalidColumns | src/packages/workbook_manager/workbook_manager.py:116-118 | the reported names are exactly the condition names that are not columns |
| Paths.PathJoin | src/packages/workbook_manager/workbook_manager.py:29 | `os.path.join(a, b)` for a relative `b` starts with `a` and ends with `b` |
| Paths.LogFilePath | src/packages/workbook_manager/workbook_manager.py:28-29 | the log path ends with `<stem>_workbook_logs.json`; `LogFilePathIsSibling` states the full result, the parent directory extended by that file name |
| Paths.ParseStr | src/packages/workbook_manager/workbook_manager.py:28-29 | printing a well-formed pure path and parsing it back gives the same path |
| Paths.LogFilePathIsSibling | src/packages/workbook_manager/workbook_manager.py:28-29 | the log path parses to the workbook's parent directory extended by `<stem>_workbook_logs.json` |
| WorkbookManager.Open | src/packages/workbook_manager/workbook_manager.py:17-35 | a missing path raises; otherwise the sheets are those read, each sheet gets a property entry, and the log sits at the derived path and starts from the existing log file or empty |
| WorkbookManager.FromDefinitions | src/packages/workbook_manager/workbook_manager.py:31-35 | for a non-empty dict of definitions: one well-formed sheet per definition, whose columns are the union of its row dicts' keys in first-seen order and whose rows hold its dicts' values in order; every sheet gets the empty property entry; no path and no log |
| WorkbookManager.CreateSheet | src/packages/workbook_manager/workbook_manager.py:37-49 | a duplicate name fails and changes nothing; a list of dicts gives those rows in order; a list of names gives exactly those columns and no rows; the sheet is added beside the others and gets an empty property entry |
| WorkbookManager.EmptyRecordSheet | src/packages/workbook_manager/workbook_manager.py:43-44 | a sheet created from one empty row dict has one row and no columns, so it is an empty frame |
| WorkbookManager.UpdateCell | src/packages/workbook_manager/workbook_manager.py:51-72 | fails on an unknown sheet or an out-of-range row or column, and succeeds exactly otherwise; on success it sets the cell, keeps the shape, other rows, other columns and other sheets, and records exactly `(previous, new)` at `(row, col)` in the `(moment, sheet, process)` bucket of an attached log, touching no other bucket |
| WorkbookManager.LogUpdateFrame | src/packages/workbook_manager/workbook_manager.py:64-72 | the log hand-off updates one coordinate of one bucket and nothing else |
| WorkbookManager.UpdateCellOtherCells | src/packages/workbook_manager/workbook_manager.py:55-62 | every cell other than `(row, col)` keeps its value |
| WorkbookManager.UpdateCellTwiceMerges | src/packages/workbook_manager/workbook_manager.py:51-72 | two in-range updates of different cells in the same second by one process both succeed and form one log entry holding both `(previous, new)` pairs |
| WorkbookManager.PeopleScenario | src/packages/workbook_manager/workbook_manager.py:51-72 | a worked example: setting (1, 1) of the People sheet to "Beau" gives row `{id: 2, name: "Beau"}` and log payload `{(1, 1): ("Bo", "Beau")}` |
| WorkbookManager.AppendRowAsWritten | src/packages/workbook_manager/workbook_manager.py:74-78 | the code as written: an unknown sheet raises, an empty dict appends nothing, and any other dict appends one row |
| WorkbookManager.AppendRowAsWrittenDropsEmptyRow | src/packages/workbook_manager/workbook_manager.py:76-78 | as written, appending `{}` leaves the row count unchanged |
| WorkbookManager.AppendRow | src/packages/workbook_manager/workbook_manager.py:74-78 | an unknown sheet raises; otherwise one row is added last with the dict's values, earlier rows keep their values, the columns grow by pandas' union with the dict's keys, and neither the log nor other sheets change |
| WorkbookManager.RowFollowsCondition | src/packages/workbook_manager/workbook_manager.py:80-84 | a true answer means every condition holds; an error names a condition key the row lacks |
| WorkbookManager.RowFollowsConditionRaises | src/packages/workbook_manager/workbook_manager.py:81-82 | when the conditions before position `i` are present and match and the row lacks the column named at `i`, the loop raises KeyError for exactly that name |
| WorkbookManager.RowFollowsConditionAgrees | src/packages/workbook_manager/workbook_manager.py:80-84 | on a row holding every condition column, the loop answers exactly whether the row meets all conditions |
| WorkbookManager.RowFollowsConditionTrueIff | src/packages/workbook_manager/workbook_manager.py:80-84 | for any row, the loop answers true iff the row meets every condition; a row lacking a condition column never passes |
| WorkbookManager.ComputeMask | src/packages/workbook_manager/workbook_manager.py:121-123 | the mask is true at a row iff that row meets every condition |
| WorkbookManager.SelectRows | src/packages/workbook_manager/workbook_manager.py:125 | selecting by the mask yields the matching rows in table order |
| WorkbookManager.GetEntries | src/packages/workbook_manager/workbook_manager.py:107-133 | an unknown sheet fails; then every invalid condition name is reported at once, before any filtering; otherwise the answer is `None` iff the sheet has no columns or no row matches, all matches in order with `return_all`, and the first match without it |
| WorkbookManager.SaveChanges | src/packages/workbook_manager/workbook_manager.py:145-164 | warns iff the target is the read path; gives the empty notice iff every sheet is an empty frame; writes every sheet regardless, saves the attached log, and applies properties to the target |
| WorkbookManager.AppendRowClearsEmptyNotice | src/packages/workbook_manager/workbook_manager.py:149-151 | after a row with at least one key is appended, saving no longer gives the all-empty notice |

## Findings

| source | as written | input that shows it | evidently intended | confidence | as-written member | corrected member |
|---|---|---|---|---|---|---|
| src/packages/workbook_manager/workbook_manager.py:76-78 | the new row is built as `pd.DataFrame({k: [v] for k, v in props.items()})`; for an empty dict that frame has no rows, so `pd.concat` appends nothing | `append_row(sheet, {})` on any existing sheet | a row of missing values is appended, so the row count grows by one | not executed; medium | WorkbookManager.AppendRowAsWrittenDropsEmptyRow | WorkbookManager.AppendRow |

## Left out

- Excel and JSON input and output are not modelled: `pd.read_excel`, `ExcelWriter`/`to_excel`, `json.load`/`json.dump`. Whether the read path exists, the sheets read and the parsed log file are parameters of `Open`. `SaveChanges` describes what is written and leaves the writing out.
- A malformed log file makes `json.load` raise. It is not modelled; the parsed content is an `Option` parameter.
- The clock (`datetime.now().strftime`) is not modelled. Each update receives its second-resolution moment as a string parameter.
- `print` and `warnings.warn` in `save_changes` become the `emptyNotice` and `overwriteWarning` flags. The wrapping of write failures into one exception (lines 165-166) is I/O and is left out.
- `PropertyManager` is not part of this model. The property store is a map from sheet name to an entry. `CreateSheet` registers the empty entry. `Open` and `FromDefinitions` are assumed to register one empty entry per sheet.
- `WorkbookLogManager` is not part of this model. See the assumption above for how its `append_log` is modelled.
- The class-level `df = {}` shared by all instances (line 15) is not modelled. So is the constructor call with neither a path nor sheet definitions, which falls back to that shared dict.
- pandas dtype inference and its distinct missing values (`NaN`, `NaT`, `None`) are collapsed into one `Null` that equals nothing. Cross-type equality such as `True == 1` is not modelled: `Bool` and `Num` cells never match each other.
- Column labels are strings only. A `create_sheet` list that mixes dicts and column names yields `Err(MixedSheetItems)`, because pandas' handling of a dict used as a column label is not modelled.
- Sheet order in the workbook is not modelled. It only affects the order of sections in the saved file.
- The key order of the dicts `get_entries` returns is not modelled: a row is a map.
- Reference aliasing is not modelled: `append_logs` stores the caller's dict object, and later merges would mutate it. The model uses values.
- How the log's `(row, col)` keys are serialised to JSON is not modelled.
- `pathlib` is modelled for POSIX paths. Windows paths and the special meaning of exactly two leading slashes are left out. The stem rule is the one where a leading or trailing dot is not a suffix.
- The interactive database record modifier and the database manager package re-exports lie outside the core. They are prompt-driven I/O over an external database.
- Repeated column labels are not modelled. They arise only from `create_sheet` given a repeated column name. pandas then raises on `pd.concat` in `append_row`, because it cannot reindex a repeated label, while `AppendRow` returns `Ok` with the labels kept.
- UpdateCellOtherCells: proved only for sheets whose column names are distinct. A row is a map, so a repeated column name shares one cell where pandas keeps two. Every sheet built from row dicts has distinct names.
- UpdateCellTwiceMerges: proved only for sheets whose column names are distinct, for the same reason.
- Tables.SetCellOthersUnchanged: proved only for tables whose column names are distinct, for the same reason.

=== FILE: base.dfy ===
/** Failure-carrying wrappers shared by the model: Python's `None` and raised exceptions. */
module Base {

  /** A value or Python's `None`. */
  datatype Option<+T> = None | Some(value: T)

  /** The outcome of an operation that may raise: `Ok` carries the result, `Err` the exception. */
  datatype Result<+T, +E> = Ok(value: T) | Err(error: E)
}

=== FILE: cells.dfy ===
/**
 Cell values, rows and ordered Python dicts as the workbook sees them.

 pandas stores a missing value as `None`, `NaN` or `NaT` depending on the
 column's dtype; the model collapses all three into the single `Null` case.
 */
module Cells {
  import opened Base

  /** A spreadsheet cell: text, number, boolean, timestamp (seconds) or missing. */
  datatype Cell = Null | Str(s: string) | Num(n: real) | Bool(b: bool) | Timestamp(seconds: int)

  /** pandas' elementwise `==`: a missing value equals nothing, not even another missing value. */
  predicate Matches(cell: Cell, value: Cell) {
    cell != Null && cell == value
  }

  /**
   A Python dict from column name to value, in insertion order, as an
   association list. A real dict never holds a key twice; should a key occur
   twice here, a lookup (`Lookup`, `ValueOf`) sees its first binding, while
   a list of conditions is checked binding by binding.
   */
  type Dict = seq<(string, Cell)>

  /** A table row: each column name mapped to that row's cell. */
  type Row = map<string, Cell>

  /** The keys of `d` in insertion order. */
  function Keys(d: Dict): (ks: seq<string>)
    ensures |ks| == |d|
    ensures forall i :: 0 <= i < |d| ==> ks[i] == d[i].0
  {
    seq(|d|, i requires 0 <= i < |d| => d[i].0)
  }

  /** `d.get(k)`: the first binding of `k`, or `None`. */
  function Lookup(d: Dict, k: string): (r: Option<Cell>)
    ensures r.None? <==> k !in Keys(d)
    ensures r.Some? ==> d[FirstIndex(Keys(d), k)] == (k, r.value)
  {
    if |d| == 0 then None
    else if d[0].0 == k then Some(d[0].1)
    else
      assert Keys(d)[1..] == Keys(d[1..]);
      Lookup(d[1..], k)
  }

  /** The value pandas stores for column `k` from dict `d`: missing keys become `Null`. */
  function ValueOf(d: Dict, k: string): Cell {
    match Lookup(d, k)
    case Some(v) => v
    case None => Null
  }

  /** Reading a column of a row; a column the row lacks reads as missing. */
  function Get(row: Row, c: string): Cell {
    if c in row then row[c] else Null
  }

  /** No name occurs twice. */
  predicate Distinct(s: seq<string>) {
    forall i, j :: 0 <= i < j < |s| ==> s[i] != s[j]
  }

  /** The position of the first occurrence of `x` in `s`. */
  function FirstIndex(s: seq<string>, x: string): (k: nat)
    requires x in s
    ensures k < |s| && s[k] == x
    ensures forall j :: 0 <= j < k ==> s[j] != x
  {
    if s[0] == x then 0 else 1 + FirstIndex(s[1..], x)
  }

  /**
   The column-union pandas performs: `cols` followed by every name of `keys`
   that is not yet present, in the order of first appearance.
   */
  function AddNew(cols: seq<string>, keys: seq<string>): (r: seq<string>)
    ensures cols <= r
    ensures forall x :: x in r <==> x in cols || x in keys
    ensures Distinct(cols) ==> Distinct(r)
    decreases |keys|
  {
    if |keys| == 0 then cols
    else AddNew(if keys[0] in cols then cols else cols + [keys[0]], keys[1..])
  }

  /**
   The union adds only names not yet in `cols`, ordered by their first
   occurrence in `keys`; with the prefix and membership clauses of `AddNew`
   this fixes the result.
   */
  lemma {:induction false} AddNewOrder(cols: seq<string>, keys: seq<string>)
    ensures forall i :: |cols| <= i < |AddNew(cols, keys)| ==> AddNew(cols, keys)[i] !in cols
    ensures forall i, j :: |cols| <= i < j < |AddNew(cols, keys)| ==>
              var r := AddNew(cols, keys); FirstIndex(keys, r[i]) < FirstIndex(keys, r[j])
    decreases |keys|
  {
    if |keys| > 0 {
      var cols' := if keys[0] in cols then cols else cols + [keys[0]];
      var r := AddNew(cols', keys[1..]);
      AddNewStep(cols, keys);
      AddNewOrder(cols', keys[1..]);
      forall i | |cols'| <= i < |r| ensures r[i] !in cols && FirstIndex(keys, r[i]) == 1 + FirstIndex(keys[1..], r[i]) {
        assert r[i] !in cols';
        FirstIndexTail(keys, r[i]);
      }
      forall i, j | |cols| <= i < j < |r| ensures FirstIndex(keys, r[i]) < FirstIndex(keys, r[j]) {
        if i < |cols'| {
          assert r[i] == keys[0];
        }
      }
    }
  }

  /** One step of the union: the first key is added when absent, then the rest follow. */
  lemma AddNewStep(cols: seq<string>, keys: seq<string>)
    requires |keys| > 0
    ensures AddNew(cols, keys) == AddNew(if keys[0] in cols then cols else cols + [keys[0]], keys[1..])
  {
  }

  /** Past the first element, a first occurrence sits one place further than in the tail. */
  lemma FirstIndexTail(s: seq<string>, x: string)
    requires x in s && x != s[0]
    ensures x in s[1..] && FirstIndex(s, x) == 1 + FirstIndex(s[1..], x)
  {
  }

  /** When no key is present yet and none repeats, the union appends `keys` verbatim. */
  lemma {:induction false} AddNewFresh(cols: seq<string>, keys: seq<string>)
    requires Distinct(keys)
    requires forall i :: 0 <= i < |keys| ==> keys[i] !in cols
    ensures AddNew(cols, keys) == cols + keys
    decreases |keys|
  {
    if |keys| > 0 {
      FreshStep(cols, keys);
      FreshTail(cols, keys);
      AddNewFresh(cols + [keys[0]], keys[1..]);
    }
  }

  /** Keys that are all columns already leave the union unchanged. */
  lemma {:induction false} AddNewPresent(cols: seq<string>, keys: seq<string>)
    requires forall i :: 0 <= i < |keys| ==> keys[i] in cols
    ensures AddNew(cols, keys) == cols
    decreases |keys|
  {
    if |keys| > 0 {
      assert keys[0] in cols;
      assert forall i :: 0 <= i < |keys| - 1 ==> keys[1..][i] == keys[i + 1];
      AddNewPresent(cols, keys[1..]);
    }
  }

  /** Moving a fresh first key onto the columns changes neither the union nor the concatenation. */
  lemma FreshStep(cols: seq<string>, keys: seq<string>)
    requires |keys| > 0 && keys[0] !in cols
    ensures AddNew(cols, keys) == AddNew(cols + [keys[0]], keys[1..])
    ensures (cols + [keys[0]]) + keys[1..] == cols + keys
  {
    ConsConcat(cols, keys);
  }

  /** Splitting off the first key and re-attaching it to the columns gives the same concatenation. */
  lemma ConsConcat(cols: seq<string>, keys: seq<string>)
    requires |keys| > 0
    ensures (cols + [keys[0]]) + keys[1..] == cols + keys
  {
    assert keys == [keys[0]] + keys[1..];
  }

  /** After taking the first key, the remaining keys are still distinct and still new. */
  lemma FreshTail(cols: seq<string>, keys: seq<string>)
    requires |keys| > 0 && Distinct(keys)
    requires forall i :: 0 <= i < |keys| ==> keys[i] !in cols
    ensures Distinct(keys[1..])
    ensures forall i :: 0 <= i < |keys| - 1 ==> keys[1..][i] !in cols + [keys[0]]
  {
    var rest := keys[1..];
    forall i, j | 0 <= i < j < |rest| ensures rest[i] != rest[j] {
      assert rest[i] == keys[i + 1] && rest[j] == keys[j + 1];
    }
    forall i | 0 <= i < |rest| ensures rest[i] !in cols + [keys[0]] {
      assert rest[i] == keys[i + 1];
    }
  }
}

=== FILE: log_manager.dfy ===
/**
 The change log: a nested mapping moment -> sheet -> process -> payload,
 where a moment is a second-resolution timestamp string and a payload maps
 keys (cell coordinates, for the workbook) to values. The clock is not
 modelled: each append receives its moment as a parameter.
 */
module LogManager {
  import opened Base

  type Payload<K, V> = map<K, V>
  type Log<K, V> = map<string, map<string, map<string, Payload<K, V>>>>

  /** The log a fresh manager starts from: the parsed file when one exists, else nothing. */
  function Load<K, V>(existing: Option<Log<K, V>>): (logs: Log<K, V>)
    ensures existing.None? ==> logs == map[]
    ensures existing.Some? ==> logs == existing.value
  {
    match existing
    case Some(l) => l
    case None => map[]
  }

  /** The payload recorded under `(moment, sheet, process)`; an absent bucket reads as empty. */
  function Bucket<K, V>(logs: Log<K, V>, moment: string, sheet: string, process: string): Payload<K, V> {
    if moment in logs && sheet in logs[moment] && process in logs[moment][sheet]
    then logs[moment][sheet][process]
    else map[]
  }

  /**
   `append_logs(sheet, process, payload)` at `moment`: the payload is merged
   into the bucket with dict-update semantics (new keys win, other keys stay),
   creating the sheet or process level when it is missing.
   */
  function AppendLogs<K, V>(logs: Log<K, V>, moment: string, sheet: string, process: string,
                            payload: Payload<K, V>): (r: Log<K, V>)
    // the merge law: the bucket becomes the old bucket updated by the payload
    ensures Bucket(r, moment, sheet, process) == Bucket(logs, moment, sheet, process) + payload
    ensures moment in r && sheet in r[moment] && process in r[moment][sheet]
    ensures forall k :: k in payload ==> r[moment][sheet][process][k] == payload[k]
    ensures forall k :: k in Bucket(logs, moment, sheet, process) && k !in payload ==>
              k in r[moment][sheet][process] && r[moment][sheet][process][k] == Bucket(logs, moment, sheet, process)[k]
    // how the levels are created
    ensures moment !in logs ==> r[moment] == map[sheet := map[process := payload]]
    ensures (moment !in logs || sheet !in logs[moment]) ==> r[moment][sheet] == map[process := payload]
    ensures moment in logs && sheet in logs[moment] && process !in logs[moment][sheet] ==>
              r[moment][sheet] == logs[moment][sheet][process := payload]
    // nothing else changes
    ensures r.Keys == logs.Keys + {moment}
    ensures forall m :: m in logs && m != moment ==> r[m] == logs[m]
    ensures moment in logs ==> r[moment].Keys == logs[moment].Keys + {sheet}
    ensures moment in logs ==> forall s :: s in logs[moment] && s != sheet ==> r[moment][s] == logs[moment][s]
    ensures moment in logs && sheet in logs[moment] ==>
              r[moment][sheet].Keys == logs[moment][sheet].Keys + {process} &&
              forall p :: p in logs[moment][sheet] && p != process ==> r[moment][sheet][p] == logs[moment][sheet][p]
  {
    var momentLogs := if moment in logs then logs[moment] else map[];
    var sheetLogs :=
      if sheet !in momentLogs then map[process := payload]
      else if process !in momentLogs[sheet] then momentLogs[sheet][process := payload]
      else momentLogs[sheet][process := momentLogs[sheet][process] + payload];
    logs[moment := momentLogs[sheet := sheetLogs]]
  }

  /** Every bucket other than `(moment, sheet, process)` is left as it was. */
  lemma AppendLogsFrame<K, V>(logs: Log<K, V>, moment: string, sheet: string, process: string,
                              payload: Payload<K, V>, m: string, s: string, p: string)
    requires (m, s, p) != (moment, sheet, process)
    ensures Bucket(AppendLogs(logs, moment, sheet, process, payload), m, s, p) == Bucket(logs, m, s, p)
  {
  }

  /** The log with the bucket `(moment, sheet, process)` set to `v`, creating levels as needed. */
  function WithBucket<K, V>(logs: Log<K, V>, moment: string, sheet: string, process: string,
                            v: Payload<K, V>): Log<K, V>
  {
    var momentLogs := if moment in logs then logs[moment] else map[];
    var sheetLogs := if sheet in momentLogs then momentLogs[sheet] else map[];
    logs[moment := momentLogs[sheet := sheetLogs[process := v]]]
  }

  /** An append is exactly the write of the merged bucket. */
  lemma AppendLogsIsWithBucket<K, V>(logs: Log<K, V>, moment: string, sheet: string, process: string,
                                     payload: Payload<K, V>)
    ensures AppendLogs(logs, moment, sheet, process, payload)
            == WithBucket(logs, moment, sheet, process, Bucket(logs, moment, sheet, process) + payload)
  {
    assert map[] + payload == payload;
  }

  /** Writing a bucket twice keeps only the second write. */
  lemma WithBucketTwice<K, V>(logs: Log<K, V>, moment: string, sheet: string, process: string,
                              v: Payload<K, V>, w: Payload<K, V>)
    ensures WithBucket(WithBucket(logs, moment, sheet, process, v), moment, sheet, process, w)
            == WithBucket(logs, moment, sheet, process, w)
  {
    var momentLogs := if moment in logs then logs[moment] else map[];
    var sheetLogs := if sheet in momentLogs then momentLogs[sheet] else map[];
    var once := WithBucket(logs, moment, sheet, process, v);
    assert once[moment] == momentLogs[sheet := sheetLogs[process := v]];
    assert once[moment][sheet] == sheetLogs[process := v];
    assert sheetLogs[process := v][process := w] == sheetLogs[process := w];
    var inner := momentLogs[sheet := sheetLogs[process := w]];
    assert momentLogs[sheet := sheetLogs[process := v]][sheet := sheetLogs[process := w]] == inner;
    assert once[moment := inner] == logs[moment := inner];
  }

  /** Appending the same payload twice at the same moment and key is the same as appending it once. */
  lemma AppendLogsIdempotent<K, V>(logs: Log<K, V>, moment: string, sheet: string, process: string,
                                   payload: Payload<K, V>)
    ensures var once := AppendLogs(logs, moment, sheet, process, payload);
            AppendLogs(once, moment, sheet, process, payload) == once
  {
    var b := Bucket(logs, moment, sheet, process);
    var once := AppendLogs(logs, moment, sheet, process, payload);
    AppendLogsIsWithBucket(logs, moment, sheet, process, payload);
    AppendLogsIsWithBucket(once, moment, sheet, process, payload);
    WithBucketTwice(logs, moment, sheet, process, b + payload, b + payload + payload);
    assert b + payload + payload == b + payload;
  }

  /**
   Two appends in the same second for the same sheet and process form ONE
   entry holding both payloads; when their keys are disjoint the order of the
   two appends does not matter.
   */
  lemma AppendLogsTwiceMerges<K, V>(logs: Log<K, V>, moment: string, sheet: string, process: string,
                                    x: Payload<K, V>, y: Payload<K, V>)
    requires x.Keys !! y.Keys
    ensures var r := AppendLogs(AppendLogs(logs, moment, sheet, process, x), moment, sheet, process, y);
            && r == AppendLogs(AppendLogs(logs, moment, sheet, process, y), moment, sheet, process, x)
            && Bucket(r, moment, sheet, process) == Bucket(logs, moment, sheet, process) + x + y
  {
    var b := Bucket(logs, moment, sheet, process);
    var lx := AppendLogs(logs, moment, sheet, process, x);
    var ly := AppendLogs(logs, moment, sheet, process, y);
    AppendLogsIsWithBucket(logs, moment, sheet, process, x);
    AppendLogsIsWithBucket(logs, moment, sheet, process, y);
    AppendLogsIsWithBucket(lx, moment, sheet, process, y);
    AppendLogsIsWithBucket(ly, moment, sheet, process, x);
    assert Bucket(lx, moment, sheet, process) == b + x;
    assert Bucket(ly, moment, sheet, process) == b + y;
    WithBucketTwice(logs, moment, sheet, process, b + x, b + x + y);
    WithBucketTwice(logs, moment, sheet, process, b + y, b + y + x);
    DisjointUpdatesCommute(b, x, y);
  }

  /** Updates by payloads with disjoint keys commute. */
  lemma DisjointUpdatesCommute<K, V>(b: Payload<K, V>, x: Payload<K, V>, y: Payload<K, V>)
    requires x.Keys !! y.Keys
    ensures b + x + y == b + y + x
  {
  }

  /** A sequence of appends under one moment and key, applied in order. */
  function AppendAll<K, V>(logs: Log<K, V>, moment: string, sheet: string, process: string,
                           payloads: seq<Payload<K, V>>): Log<K, V>
    decreases |payloads|
  {
    if |payloads| == 0 then logs
    else AppendAll(AppendLogs(logs, moment, sheet, process, payloads[0]), moment, sheet, process, payloads[1..])
  }

  /** The payloads in order, later keys overriding earlier ones. */
  function MergeAll<K, V>(base: Payload<K, V>, payloads: seq<Payload<K, V>>): Payload<K, V>
    decreases |payloads|
  {
    if |payloads| == 0 then base else MergeAll(base + payloads[0], payloads[1..])
  }

  /**
   However many appends land in the same second for one sheet and process,
   they accumulate into a single bucket: the old bucket updated by each
   payload in turn; every other bucket is untouched.
   */
  lemma {:induction false} AppendAllAccumulates<K, V>(logs: Log<K, V>, moment: string, sheet: string,
                                                      process: string, payloads: seq<Payload<K, V>>)
    ensures Bucket(AppendAll(logs, moment, sheet, process, payloads), moment, sheet, process)
            == MergeAll(Bucket(logs, moment, sheet, process), payloads)
    ensures forall m, s, p :: (m, s, p) != (moment, sheet, process) ==>
              Bucket(AppendAll(logs, moment, sheet, process, payloads), m, s, p) == Bucket(logs, m, s, p)
    decreases |payloads|
  {
    if |payloads| > 0 {
      var next := AppendLogs(logs, moment, sheet, process, payloads[0]);
      AppendAllAccumulates(next, moment, sheet, process, payloads[1..]);
      forall m, s, p | (m, s, p) != (moment, sheet, process)
        ensures Bucket(next, m, s, p) == Bucket(logs, m, s, p)
      {
        AppendLogsFrame(logs, moment, sheet, process, payloads[0], m, s, p);
      }
    }
  }

  /** Entries only accumulate: every key recorded in a bucket is still recorded after an append. */
  lemma AppendLogsGrows<K, V>(logs: Log<K, V>, moment: string, sheet: string, process: string,
                              payload: Payload<K, V>, m: string, s: string, p: string)
    ensures Bucket(logs, m, s, p).Keys <= Bucket(AppendLogs(logs, moment, sheet, process, payload), m, s, p).Keys
  {
    if (m, s, p) != (moment, sheet, process) {
      AppendLogsFrame(logs, moment, sheet, process, payload, m, s, p);
    }
  }
}

=== FILE: paths.dfy ===
/**
 The change-log location derived from the workbook's path: the workbook's
 directory joined with `<stem>_workbook_logs.json`, following POSIX
 `pathlib.PurePath` parsing and `os.path.join`.
 */
module Paths {

  /** The fixed suffix appended to the workbook's stem. */
  const LogSuffix: string := "_workbook_logs.json"

  /** A parsed path: whether it is rooted, and its non-empty components other than `.`. */
  datatype PurePath = PurePath(absolute: bool, parts: seq<string>)

  /** `s` holds no separator. */
  predicate NoSlash(s: string) {
    forall j :: 0 <= j < |s| ==> s[j] != '/'
  }

  /** A component pathlib keeps: non-empty, not `.`, and free of separators. */
  predicate IsPart(s: string) {
    s != "" && s != "." && NoSlash(s)
  }

  predicate WellFormed(p: PurePath) {
    forall i :: 0 <= i < |p.parts| ==> IsPart(p.parts[i])
  }

  /** A segment between separators, dropped when empty or `.` (pathlib's normalisation). */
  function Keep(segment: string): seq<string> {
    if segment == "" || segment == "." then [] else [segment]
  }

  /**
   Scans `s` left to right, `segment` being the part of the current segment
   read so far; each `/` closes a segment.
   */
  function Scan(s: string, segment: string): (parts: seq<string>)
    requires NoSlash(segment)
    ensures forall i :: 0 <= i < |parts| ==> IsPart(parts[i])
    decreases |s|
  {
    if |s| == 0 then Keep(segment)
    else if s[0] == '/' then Keep(segment) + Scan(s[1..], "")
    else Scan(s[1..], segment + [s[0]])
  }

  /** The components pathlib keeps from `s`. */
  function Components(s: string): (parts: seq<string>)
    ensures forall i :: 0 <= i < |parts| ==> IsPart(parts[i])
  {
    Scan(s, "")
  }

  /** `PurePosixPath(s)`. */
  function Parse(s: string): (p: PurePath)
    ensures WellFormed(p)
  {
    PurePath(|s| > 0 && s[0] == '/', Components(s))
  }

  /** `'/'.join(parts)`. */
  function Join(parts: seq<string>): string
    decreases |parts|
  {
    if |parts| == 0 then ""
    else if |parts| == 1 then parts[0]
    else parts[0] + "/" + Join(parts[1..])
  }

  /** `str(p)`: an empty relative path prints as `.`, the bare root as `/`. */
  function Str(p: PurePath): string {
    if |p.parts| == 0 then (if p.absolute then "/" else ".")
    else (if p.absolute then "/" else "") + Join(p.parts)
  }

  /** `p.name`: the last component, or the empty string. */
  function Name(p: PurePath): string {
    if |p.parts| == 0 then "" else p.parts[|p.parts| - 1]
  }

  /** `p.parent`: the path without its last component; the root and `.` are their own parents. */
  function Parent(p: PurePath): PurePath {
    if |p.parts| == 0 then p else PurePath(p.absolute, p.parts[..|p.parts| - 1])
  }

  /** The position of the last `.` in `name`, or -1. */
  function LastDot(name: string): (i: int)
    ensures -1 <= i < |name|
    ensures i >= 0 ==> name[i] == '.'
    ensures forall j :: i < j < |name| ==> name[j] != '.'
  {
    if |name| == 0 then -1
    else if name[|name| - 1] == '.' then |name| - 1
    else LastDot(name[..|name| - 1])
  }

  /** `p.stem`: the name without its final suffix; a leading or trailing dot is not a suffix. */
  function Stem(name: string): (stem: string)
    ensures stem <= name
    ensures NoSlash(name) ==> NoSlash(stem)
  {
    var i := LastDot(name);
    if 0 < i < |name| - 1 then name[..i] else name
  }

  /** `os.path.join(a, b)` for a relative, non-empty `b`. */
  function PathJoin(a: string, b: string): (joined: string)
    ensures |b| <= |joined| && joined[|joined| - |b|..] == b
    ensures a <= joined
  {
    if a == "" then b
    else if a[|a| - 1] == '/' then a + b
    else a + "/" + b
  }

  /** `os.path.join(p.parent, f"{p.stem}_workbook_logs.json")` with `p = pathlib.Path(readPath)`. */
  function LogFilePath(readPath: string): (logPath: string)
    ensures var file := Stem(Name(Parse(readPath))) + LogSuffix;
            |file| <= |logPath| && logPath[|logPath| - |file|..] == file
  {
    var p := Parse(readPath);
    PathJoin(Str(Parent(p)), Stem(Name(p)) + LogSuffix)
  }

  // ---- parsing facts ----

  /** A separator closes the segment being scanned. */
  lemma {:induction false} ScanSplit(a: string, b: string, segment: string)
    requires NoSlash(segment)
    ensures Scan(a + "/" + b, segment) == Scan(a, segment) + Scan(b, "")
    decreases |a|
  {
    var s := a + "/" + b;
    if |a| == 0 {
      assert s[0] == '/' && s[1..] == b;
    } else {
      assert s[0] == a[0] && s[1..] == a[1..] + "/" + b;
      if a[0] == '/' {
        ScanSplit(a[1..], b, "");
      } else {
        ScanSplit(a[1..], b, segment + [a[0]]);
      }
    }
  }

  /** Without separators the whole input is one segment. */
  lemma {:induction false} ScanNoSlash(s: string, segment: string)
    requires NoSlash(segment) && NoSlash(s)
    ensures Scan(s, segment) == Keep(segment + s)
    decreases |s|
  {
    if |s| == 0 {
      assert segment + s == segment;
    } else {
      assert s[0] != '/';
      ScanNoSlash(s[1..], segment + [s[0]]);
      assert (segment + [s[0]]) + s[1..] == segment + s;
    }
  }

  /** Splitting at a separator splits the components. */
  lemma ComponentsSplit(a: string, b: string)
    ensures Components(a + "/" + b) == Components(a) + Components(b)
  {
    ScanSplit(a, b, "");
  }

  lemma {:induction false} ComponentsJoin(parts: seq<string>)
    requires forall i :: 0 <= i < |parts| ==> IsPart(parts[i])
    ensures Components(Join(parts)) == parts
    decreases |parts|
  {
    if |parts| > 0 {
      ScanNoSlash(parts[0], "");
      assert "" + parts[0] == parts[0];
    }
    if |parts| > 1 {
      ComponentsSplit(parts[0], Join(parts[1..]));
      ComponentsJoin(parts[1..]);
    }
  }

  /** A join of well-formed parts starts with the first part, so never with a slash. */
  lemma JoinStartsWithFirst(parts: seq<string>)
    requires |parts| > 0
    ensures parts[0] <= Join(parts)
  {
  }

  /** Printing a well-formed path and parsing it back gives the same path. */
  lemma ParseStr(p: PurePath)
    requires WellFormed(p)
    ensures Parse(Str(p)) == p
  {
    if |p.parts| == 0 {
      if p.absolute {
        assert "/"[1..] == "";
      } else {
        ScanNoSlash(".", "");
        assert "" + "." == ".";
      }
    } else {
      ComponentsJoin(p.parts);
      JoinStartsWithFirst(p.parts);
      var j := Join(p.parts);
      assert IsPart(p.parts[0]);
      assert j[0] == p.parts[0][0] && p.parts[0][0] != '/';
      if !p.absolute {
        assert Str(p) == j;
      } else {
        assert ("/" + j)[1..] == j;
      }
    }
  }

  /** The log file's name is a component pathlib keeps. */
  lemma LogNameIsPart(stem: string)
    requires NoSlash(stem)
    ensures IsPart(stem + LogSuffix)
  {
    var file := stem + LogSuffix;
    assert file[|file| - 1] == 'n';
    assert forall j :: |stem| <= j < |file| ==> file[j] == LogSuffix[j - |stem|];
  }

  /** Joining a directory with a file name appends the name to the directory's components. */
  lemma {:induction false} JoinFile(dir: PurePath, file: string)
    requires WellFormed(dir) && IsPart(file)
    ensures Parse(PathJoin(Str(dir), file)) == PurePath(dir.absolute, dir.parts + [file])
  {
    var joined := PathJoin(Str(dir), file);
    if |dir.parts| == 0 {
      if dir.absolute {
        assert joined == "/" + file;
        assert joined[1..] == file;
        ScanNoSlash(file, "");
        assert "" + file == file;
      } else {
        assert joined == "." + "/" + file;
        ComponentsSplit(".", file);
        ScanNoSlash(".", "");
        ScanNoSlash(file, "");
        assert "" + "." == "." && "" + file == file;
      }
    } else {
      ParseStr(dir);
      var s := Str(dir);
      LastOfJoin(dir.parts);
      assert s[|s| - 1] != '/';
      assert joined == s + "/" + file;
      ComponentsSplit(s, file);
      ScanNoSlash(file, "");
      assert "" + file == file;
      assert joined[0] == s[0];
    }
  }

  /**
   The log file is a sibling of the workbook: parsing the derived path gives
   the workbook's directory extended by `<stem>_workbook_logs.json`.
   */
  lemma LogFilePathIsSibling(readPath: string)
    ensures var p := Parse(readPath);
            Parse(LogFilePath(readPath)) == PurePath(p.absolute, Parent(p).parts + [Stem(Name(p)) + LogSuffix])
  {
    var p := Parse(readPath);
    var name := Name(p);
    assert NoSlash(name);
    LogNameIsPart(Stem(name));
    JoinFile(Parent(p), Stem(name) + LogSuffix);
  }

  /** A join of well-formed parts does not end with a slash. */
  lemma {:induction false} LastOfJoin(parts: seq<string>)
    requires |parts| > 0
    requires forall i :: 0 <= i < |parts| ==> IsPart(parts[i])
    ensures |Join(parts)| > 0 && Join(parts)[|Join(parts)| - 1] != '/'
    decreases |parts|
  {
    if |parts| > 1 {
      LastOfJoin(parts[1..]);
    }
  }
}

=== FILE: tables.dfy ===
/**
 One sheet of the workbook: a pandas DataFrame reduced to an ordered list of
 column names and an ordered list of rows, each row a map from column name
 to cell.
 */
module Tables {
  import opened Cells

  datatype Table = Table(columns: seq<string>, rows: seq<Row>)

  /** The set of names in a column list. */
  function NameSet(names: seq<string>): set<string> {
    set c | c in names
  }

  /** The set of the table's column names. */
  function ColumnSet(t: Table): set<string> {
    NameSet(t.columns)
  }

  /** A well-formed table: column names do not repeat and every row has exactly one cell per column. */
  predicate Wf(t: Table) {
    && Distinct(t.columns)
    && forall i :: 0 <= i < |t.rows| ==> t.rows[i].Keys == ColumnSet(t)
  }

  /** `DataFrame.empty`: a frame is empty when either axis has length zero. */
  predicate IsEmpty(t: Table) {
    |t.rows| == 0 || |t.columns| == 0
  }

  /** `iat[r, c]`: the cell at row position `r` and column position `c`. */
  function CellAt(t: Table, r: nat, c: nat): Cell
    requires r < |t.rows| && c < |t.columns|
  {
    Get(t.rows[r], t.columns[c])
  }

  /** The row a dict becomes under the given columns: absent keys are missing values. */
  function RowOf(columns: seq<string>, d: Dict): (row: Row)
    ensures row.Keys == NameSet(columns)
    ensures forall c :: c in columns ==> row[c] == ValueOf(d, c)
  {
    map c | c in columns :: ValueOf(d, c)
  }

  /** Some record among `records` has key `c`. */
  predicate HasKey(records: seq<Dict>, c: string) {
    exists i :: 0 <= i < |records| && c in Keys(records[i])
  }

  /** A key occurs in a non-empty list of records iff it occurs in the earlier ones or in the last. */
  lemma HasKeyLast(records: seq<Dict>, c: string)
    requires |records| > 0
    ensures HasKey(records, c) <==> HasKey(records[..|records| - 1], c) || c in Keys(records[|records| - 1])
  {
    var n := |records| - 1;
    if HasKey(records, c) && c !in Keys(records[n]) {
      var i :| 0 <= i < |records| && c in Keys(records[i]);
      assert records[..n][i] == records[i];
    }
    if HasKey(records[..n], c) {
      var i :| 0 <= i < n && c in Keys(records[..n][i]);
      assert records[..n][i] == records[i];
    }
  }

  /** The union of the records' keys, in order of first appearance. */
  function UnionKeys(records: seq<Dict>): (cols: seq<string>)
    ensures Distinct(cols)
    ensures forall c :: c in cols <==> HasKey(records, c)
    decreases |records|
  {
    if |records| == 0 then []
    else
      var n := |records| - 1;
      var prefix := UnionKeys(records[..n]);
      var cols := AddNew(prefix, Keys(records[n]));
      assert forall c :: c in cols <==> HasKey(records, c) by {
        forall c ensures c in cols <==> HasKey(records, c) {
          HasKeyLast(records, c);
        }
      }
      cols
  }

  /** The union over a non-empty list extends the union over all but the last record by that record's keys. */
  lemma UnionKeysLast(records: seq<Dict>)
    requires |records| > 0
    ensures UnionKeys(records) == AddNew(UnionKeys(records[..|records| - 1]), Keys(records[|records| - 1]))
  {
  }

  /** Records that all have the same distinct keys give exactly those columns, in that order. */
  lemma {:induction false} UnionKeysUniform(records: seq<Dict>, ks: seq<string>)
    requires |records| > 0 && Distinct(ks)
    requires forall i :: 0 <= i < |records| ==> Keys(records[i]) == ks
    ensures UnionKeys(records) == ks
    decreases |records|
  {
    var n := |records| - 1;
    UnionKeysLast(records);
    if n == 0 {
      assert records[..0] == [];
      AddNewFresh([], ks);
    } else {
      assert forall i :: 0 <= i < n ==> records[..n][i] == records[i];
      UnionKeysUniform(records[..n], ks);
      AddNewPresent(ks, ks);
    }
  }

  /** Keys seen in earlier records keep their place when later records are added. */
  lemma {:induction false} UnionKeysPrefix(records: seq<Dict>, i: nat)
    requires i <= |records|
    ensures UnionKeys(records[..i]) <= UnionKeys(records)
    decreases |records| - i
  {
    if i < |records| {
      var n := |records| - 1;
      assert records[..n][..i] == records[..i];
      UnionKeysPrefix(records[..n], i);
      assert records[..n] == records[..|records| - 1];
    } else {
      assert records[..i] == records;
    }
  }

  /** The first record's keys lead the column list, in that record's own order. */
  lemma UnionKeysStartsWithFirst(records: seq<Dict>)
    requires |records| > 0
    requires Distinct(Keys(records[0]))
    ensures Keys(records[0]) <= UnionKeys(records)
  {
    assert records[..1][..0] == [];
    AddNewFresh([], Keys(records[0]));
    assert UnionKeys(records[..1]) == Keys(records[0]);
    UnionKeysPrefix(records, 1);
  }

  /**
   `pd.DataFrame(records)`: the columns are the union of the records' keys in
   order of first appearance, one row per record in order, and a key a record
   lacks is a missing value in that row.
   */
  function FromRecords(records: seq<Dict>): (t: Table)
    ensures Wf(t)
    ensures t.columns == UnionKeys(records)
    ensures |t.rows| == |records|
    ensures forall c :: c in t.columns <==> HasKey(records, c)
    ensures forall i, c :: 0 <= i < |records| && c in t.columns ==> t.rows[i][c] == ValueOf(records[i], c)
  {
    var cols := UnionKeys(records);
    Table(cols, seq(|records|, i requires 0 <= i < |records| => RowOf(cols, records[i])))
  }

  /** `pd.DataFrame(columns=names)`: exactly the given columns and no rows. */
  function FromColumns(names: seq<string>): (t: Table)
    ensures t.columns == names && |t.rows| == 0
    ensures Distinct(names) ==> Wf(t)
  {
    Table(names, [])
  }

  /** `iat[r, c] = v`: overwrite one cell in place. */
  function SetCell(t: Table, r: nat, c: nat, v: Cell): (t': Table)
    requires r < |t.rows| && c < |t.columns|
    ensures t'.columns == t.columns && |t'.rows| == |t.rows|
    ensures CellAt(t', r, c) == v
    ensures forall i :: 0 <= i < |t.rows| && i != r ==> t'.rows[i] == t.rows[i]
    ensures forall k :: k != t.columns[c] ==> Get(t'.rows[r], k) == Get(t.rows[r], k)
    ensures Wf(t) ==> Wf(t')
  {
    Table(t.columns, t.rows[r := t.rows[r][t.columns[c] := v]])
  }

  /** In a table whose columns do not repeat, a cell write changes that one position only. */
  lemma SetCellOthersUnchanged(t: Table, r: nat, c: nat, v: Cell, i: nat, j: nat)
    requires Distinct(t.columns)
    requires r < |t.rows| && c < |t.columns|
    requires i < |t.rows| && j < |t.columns| && (i, j) != (r, c)
    ensures CellAt(SetCell(t, r, c, v), i, j) == CellAt(t, i, j)
  {
  }

  /** A row widened to a longer column list: the new columns read as missing. */
  function Widen(row: Row, columns: seq<string>): (row': Row)
    ensures row'.Keys == NameSet(columns)
    ensures forall c :: c in columns ==> row'[c] == Get(row, c)
  {
    map c | c in columns :: Get(row, c)
  }

  /**
   `pd.concat([frame, pd.DataFrame({k: [v] for k, v in d.items()})], ignore_index=True)`
   for a non-empty `d`: the keys of `d` that are not yet columns become new
   columns at the end, every earlier row reads them as missing, and the new
   row, placed last, reads `d`'s value in each column it names and a missing
   value elsewhere.
   */
  function AppendRecord(t: Table, d: Dict): (t': Table)
    ensures |t'.rows| == |t.rows| + 1
    ensures t'.columns == AddNew(t.columns, Keys(d))
    ensures forall c :: c in t'.columns <==> c in t.columns || c in Keys(d)
    ensures forall i, c :: 0 <= i < |t.rows| && c in t'.columns ==> Get(t'.rows[i], c) == Get(t.rows[i], c)
    ensures forall c :: c in t'.columns ==> Get(t'.rows[|t.rows|], c) == ValueOf(d, c)
    ensures Wf(t) ==> Wf(t')
  {
    var cols := AddNew(t.columns, Keys(d));
    var widened := seq(|t.rows|, i requires 0 <= i < |t.rows| => Widen(t.rows[i], cols));
    var t' := Table(cols, widened + [RowOf(cols, d)]);
    assert Wf(t) ==> Wf(t') by {
      if Wf(t) {
        forall i | 0 <= i < |t'.rows| ensures t'.rows[i].Keys == ColumnSet(t') {
          if i < |t.rows| { assert t'.rows[i] == widened[i]; }
        }
      }
    }
    t'
  }

  /** A row meets every `(column, value)` condition under pandas' equality. */
  predicate Satisfies(row: Row, conditions: Dict) {
    forall i :: 0 <= i < |conditions| ==> Matches(Get(row, conditions[i].0), conditions[i].1)
  }

  /** The rows meeting the conditions, in their original order. */
  function MatchingRows(rows: seq<Row>, conditions: Dict): (hits: seq<Row>)
    ensures |hits| <= |rows|
    ensures forall k :: 0 <= k < |hits| ==> hits[k] in rows && Satisfies(hits[k], conditions)
    ensures |hits| == 0 <==> forall i :: 0 <= i < |rows| ==> !Satisfies(rows[i], conditions)
    decreases |rows|
  {
    if |rows| == 0 then []
    else
      var n := |rows| - 1;
      var earlier := MatchingRows(rows[..n], conditions);
      assert forall i :: 0 <= i < n ==> rows[..n][i] == rows[i];
      earlier + (if Satisfies(rows[n], conditions) then [rows[n]] else [])
  }

  /** Filtering distributes over concatenation: matches keep their relative order. */
  lemma {:induction false} MatchingRowsConcat(a: seq<Row>, b: seq<Row>, conditions: Dict)
    ensures MatchingRows(a + b, conditions) == MatchingRows(a, conditions) + MatchingRows(b, conditions)
    decreases |b|
  {
    if |b| == 0 {
      assert a + b == a;
    } else {
      var n := |b| - 1;
      assert (a + b)[..|a + b| - 1] == a + b[..n];
      MatchingRowsConcat(a, b[..n], conditions);
    }
  }

  /** A single row is kept exactly when it meets the conditions. */
  lemma MatchingRowsSingle(row: Row, conditions: Dict)
    ensures MatchingRows([row], conditions) == if Satisfies(row, conditions) then [row] else []
  {
    assert [row][..0] == [];
  }

  /** Row `i` is the first row meeting the conditions. */
  predicate IsFirstMatch(rows: seq<Row>, conditions: Dict, i: int) {
    && 0 <= i < |rows|
    && Satisfies(rows[i], conditions)
    && forall j :: 0 <= j < i ==> !Satisfies(rows[j], conditions)
  }

  /** The head of the matching rows is the first row, in table order, that meets the conditions. */
  lemma {:induction false} MatchingRowsHead(rows: seq<Row>, conditions: Dict)
    requires |MatchingRows(rows, conditions)| > 0
    ensures exists i :: IsFirstMatch(rows, conditions, i) && MatchingRows(rows, conditions)[0] == rows[i]
    decreases |rows|
  {
    var n := |rows| - 1;
    var front := rows[..n];
    MatchingRowsLast(rows, conditions);
    if |MatchingRows(front, conditions)| > 0 {
      MatchingRowsHead(front, conditions);
      var i :| IsFirstMatch(front, conditions, i) && MatchingRows(front, conditions)[0] == front[i];
      FirstMatchExtends(rows, conditions, i);
    } else {
      LastIsFirstMatch(rows, conditions);
    }
  }

  /** The matches of a non-empty list: those of all but the last row, then the last row if it matches. */
  lemma MatchingRowsLast(rows: seq<Row>, conditions: Dict)
    requires |rows| > 0
    ensures MatchingRows(rows, conditions) ==
              MatchingRows(rows[..|rows| - 1], conditions) + (if Satisfies(rows[|rows| - 1], conditions) then [rows[|rows| - 1]] else [])
  {
  }

  /** A first match among all but the last row is a first match of the whole list. */
  lemma FirstMatchExtends(rows: seq<Row>, conditions: Dict, i: int)
    requires |rows| > 0 && IsFirstMatch(rows[..|rows| - 1], conditions, i)
    ensures IsFirstMatch(rows, conditions, i) && rows[..|rows| - 1][i] == rows[i]
  {
    var front := rows[..|rows| - 1];
    forall j | 0 <= j <= i ensures front[j] == rows[j] { }
  }

  /** When no earlier row matches, a matching last row is the first match. */
  lemma LastIsFirstMatch(rows: seq<Row>, conditions: Dict)
    requires |rows| > 0 && |MatchingRows(rows, conditions)| > 0
    requires |MatchingRows(rows[..|rows| - 1], conditions)| == 0
    ensures IsFirstMatch(rows, conditions, |rows| - 1)
    ensures MatchingRows(rows, conditions)[0] == rows[|rows| - 1]
  {
    var n := |rows| - 1;
    var front := rows[..n];
    MatchingRowsLast(rows, conditions);
    forall j | 0 <= j < n ensures !Satisfies(rows[j], conditions) {
      assert front[j] == rows[j];
    }
  }

  /** The condition names that are not columns of the table. */
  function InvalidColumns(conditions: Dict, columns: seq<string>): (bad: seq<string>)
    ensures forall k :: k in bad <==> k in Keys(conditions) && k !in columns
    decreases |conditions|
  {
    if |conditions| == 0 then []
    else
      (if conditions[0].0 in columns then [] else [conditions[0].0])
      + InvalidColumns(conditions[1..], columns)
  }
}

=== FILE: workbook_manager.dfy ===
/**
 The workbook manager: named sheets held in memory, a property-store entry
 per sheet, and (for a workbook read from a file) an attached change log that
 records every cell update. A Python method that can raise becomes a pure
 function from the old workbook to a `Result` holding the new one or the
 answer; a raised exception becomes `Err`. `FromDefinitions` returns the
 `Workbook` and `SaveChanges` a `SavePlan`, since neither raises here.
 `get_entries` and its mask are methods whose loops follow the source's loops.
 */
module WorkbookManager {
  import opened Base
  import opened Cells
  import opened Tables
  import LogManager
  import Paths

  /** A cell coordinate `(row, col)` as the change log records it. */
  type Coord = (int, int)

  /** `(previous value, new value)` of one cell update. */
  type Change = (Cell, Cell)

  type ChangeLog = LogManager.Log<Coord, Change>

  /** A sheet's entry in the property store; this core only ever registers the empty entry. */
  type Properties = map<string, string>

  /** The change log attached to a workbook read from a file, with the file it is saved to. */
  datatype AttachedLog = AttachedLog(path: string, entries: ChangeLog)

  datatype Workbook = Workbook(
    readPath: Option<string>,
    sheets: map<string, Table>,
    props: map<string, Properties>,
    log: Option<AttachedLog>)

  /** The exceptions the manager raises. */
  datatype Error =
    | InvalidPath(path: string)               // ValueError: the read path does not exist
    | DuplicateSheet(name: string)            // ValueError: create_sheet on an existing name
    | UnknownSheet(name: string)              // ValueError / KeyError: no sheet of that name
    | OutOfBounds(row: int, col: int)         // IndexError: update_cell outside the table
    | InvalidColumnNames(names: seq<string>)  // KeyError: condition names that are not columns
    | MissingKey(key: string)                 // KeyError: row_follows_condition on an absent column
    | MixedSheetItems(name: string)           // create_sheet given both dicts and column names

  /** An element of `create_sheet`'s list: a column name or a row dict. */
  datatype Item = ColumnName(name: string) | Record(entries: Dict)

  /** What `get_entries` returns: `None`, the first matching row, or every matching row. */
  datatype Entries = NoMatch | One(row: Row) | Many(rows: seq<Row>)

  /** The entry the property store receives for a newly registered sheet. */
  const NoProperties: Properties := map[]

  // ---- construction ----

  /**
   `WorkbookManager(read_file_path)`: the path must exist; the sheets are
   those read from the file, every sheet gets a property-store entry, and the
   change log lives next to the workbook and starts from the log file's
   content when there is one. Reading the files is outside the model: whether
   the path exists, the sheets read and the parsed log are parameters.
   An empty path selects the other constructor branch, hence the requires.
   */
  function Open(readPath: string, pathExists: bool, loaded: map<string, Table>,
                existingLog: Option<ChangeLog>): (r: Result<Workbook, Error>)
    requires readPath != ""
    ensures r.Err? <==> !pathExists
    ensures r.Err? ==> r.error == InvalidPath(readPath)
    ensures r.Ok? ==>
              && r.value.readPath == Some(readPath)
              && r.value.sheets == loaded
              && r.value.props.Keys == loaded.Keys
              && (forall n :: n in r.value.props ==> r.value.props[n] == NoProperties)
              && r.value.log.Some?
              && r.value.log.value.path == Paths.LogFilePath(readPath)
              && (existingLog.None? ==> r.value.log.value.entries == map[])
              && (existingLog.Some? ==> r.value.log.value.entries == existingLog.value)
  {
    if !pathExists then Err(InvalidPath(readPath))
    else
      Ok(Workbook(Some(readPath), loaded, map n | n in loaded :: NoProperties,
                  Some(AttachedLog(Paths.LogFilePath(readPath), LogManager.Load(existingLog)))))
  }

  /**
   `WorkbookManager(create_sheets=defs)`: one sheet per definition, built from
   its list of row dicts; no file path and no change log. An empty `defs` is
   falsy and selects the fallback to the shared class-level dict, hence the
   requires.
   */
  function FromDefinitions(defs: map<string, seq<Dict>>): (wb: Workbook)
    requires |defs| > 0
    ensures wb.readPath.None? && wb.log.None?
    ensures wb.sheets.Keys == defs.Keys && wb.props.Keys == defs.Keys
    ensures forall n :: n in defs ==> wb.props[n] == NoProperties
    ensures forall n :: n in defs ==>
              && Wf(wb.sheets[n])
              && wb.sheets[n].columns == UnionKeys(defs[n])
              && |wb.sheets[n].rows| == |defs[n]|
              && forall i, c :: 0 <= i < |defs[n]| && c in wb.sheets[n].columns ==>
                   wb.sheets[n].rows[i][c] == ValueOf(defs[n][i], c)
  {
    Workbook(None, map n | n in defs :: FromRecords(defs[n]), map n | n in defs :: NoProperties, None)
  }

  // ---- create_sheet ----

  /** `all(isinstance(item, dict) for item in items)`; true of the empty list. */
  predicate AllRecords(items: seq<Item>) {
    forall i :: 0 <= i < |items| ==> items[i].Record?
  }

  predicate AllColumnNames(items: seq<Item>) {
    forall i :: 0 <= i < |items| ==> items[i].ColumnName?
  }

  function RecordsOf(items: seq<Item>): (records: seq<Dict>)
    requires AllRecords(items)
    ensures |records| == |items|
    ensures forall i :: 0 <= i < |items| ==> records[i] == items[i].entries
  {
    seq(|items|, i requires 0 <= i < |items| => items[i].entries)
  }

  function NamesOf(items: seq<Item>): (names: seq<string>)
    requires AllColumnNames(items)
    ensures |names| == |items|
    ensures forall i :: 0 <= i < |items| ==> names[i] == items[i].name
  {
    seq(|items|, i requires 0 <= i < |items| => items[i].name)
  }

  /**
   `create_sheet(name, items)`: refuses an existing name; a list of dicts
   becomes a populated table, a list of column names an empty table with
   exactly those columns; the new sheet also gets an empty property entry.
   */
  function CreateSheet(wb: Workbook, name: string, items: seq<Item>): (r: Result<Workbook, Error>)
    ensures name in wb.sheets ==> r == Err(DuplicateSheet(name))
    ensures name !in wb.sheets && !AllRecords(items) && !AllColumnNames(items) ==> r == Err(MixedSheetItems(name))
    ensures r.Ok? ==>
              && name !in wb.sheets
              && r.value.sheets.Keys == wb.sheets.Keys + {name}
              && (forall n :: n in wb.sheets ==> r.value.sheets[n] == wb.sheets[n])
              && r.value.props == wb.props[name := NoProperties]
              && r.value.log == wb.log && r.value.readPath == wb.readPath
    ensures name !in wb.sheets && AllRecords(items) ==>
              r.Ok? &&
              var t := r.value.sheets[name];
              && Wf(t)
              && t.columns == UnionKeys(RecordsOf(items))
              && |t.rows| == |items|
              && (forall c :: c in t.columns <==> HasKey(RecordsOf(items), c))
              && forall i, c :: 0 <= i < |items| && c in t.columns ==> t.rows[i][c] == ValueOf(items[i].entries, c)
    ensures name !in wb.sheets && !AllRecords(items) && AllColumnNames(items) ==>
              && r.Ok?
              && r.value.sheets[name].columns == NamesOf(items)
              && |r.value.sheets[name].rows| == 0
  {
    if name in wb.sheets then Err(DuplicateSheet(name))
    else
    if !AllRecords(items) && !AllColumnNames(items) then Err(MixedSheetItems(name))
    else
      var table := if AllRecords(items) then FromRecords(RecordsOf(items)) else FromColumns(NamesOf(items));
      Ok(wb.(sheets := wb.sheets[name := table], props := wb.props[name := NoProperties]))
  }

  /**
   A sheet created from one empty row dict has a row but no columns, so it is
   an empty frame: `get_entries` answers `None` on it and `save_changes`
   counts it as empty.
   */
  lemma {:induction false} EmptyRecordSheet(wb: Workbook, name: string)
    requires name !in wb.sheets
    ensures CreateSheet(wb, name, [Record([])]).Ok?
    ensures var t := CreateSheet(wb, name, [Record([])]).value.sheets[name];
            |t.rows| == 1 && t.columns == [] && IsEmpty(t)
  {
    var records := RecordsOf([Record([])]);
    assert records == [[]];
    assert records[..0] == [];
    assert UnionKeys(records) == AddNew([], Keys([]));
  }

  // ---- update_cell ----

  predicate InBounds(t: Table, row: int, col: int) {
    0 <= row < |t.rows| && 0 <= col < |t.columns|
  }

  /** The bucket `(moment, sheet, process)` of an attached log; an absent log reads as empty. */
  function LoggedAt(log: Option<AttachedLog>, moment: string, sheet: string, process: string): map<Coord, Change> {
    match log
    case Some(l) => LogManager.Bucket(l.entries, moment, sheet, process)
    case None => map[]
  }

  /**
   `update_cell(process, sheet, row, col, new_val)` in the second `moment`:
   checks the sheet and the bounds, overwrites the cell, and, when a change
   log is attached, merges `{(row, col): (previous, new_val)}` into its
   `(moment, sheet, process)` bucket.
   */
  function UpdateCell(wb: Workbook, moment: string, process: string, sheet: string,
                      row: int, col: int, newVal: Cell): (r: Result<Workbook, Error>)
    ensures sheet !in wb.sheets ==> r == Err(UnknownSheet(sheet))
    ensures sheet in wb.sheets && !InBounds(wb.sheets[sheet], row, col) ==> r == Err(OutOfBounds(row, col))
    ensures r.Ok? <==> sheet in wb.sheets && InBounds(wb.sheets[sheet], row, col)
    ensures r.Ok? ==>
              && r.value.sheets.Keys == wb.sheets.Keys
              && (forall n :: n in wb.sheets && n != sheet ==> r.value.sheets[n] == wb.sheets[n])
              && r.value.props == wb.props && r.value.readPath == wb.readPath
              && var t, t' := wb.sheets[sheet], r.value.sheets[sheet];
              && t'.columns == t.columns && |t'.rows| == |t.rows|
              && CellAt(t', row, col) == newVal
              && (forall i :: 0 <= i < |t.rows| && i != row ==> t'.rows[i] == t.rows[i])
              && (forall k :: k != t.columns[col] ==> Get(t'.rows[row], k) == Get(t.rows[row], k))
              && (Wf(t) ==> Wf(t'))
    ensures r.Ok? ==>
              && (r.value.log.Some? <==> wb.log.Some?)
              && (wb.log.Some? ==> r.value.log.value.path == wb.log.value.path)
              && (wb.log.Some? ==> LoggedAt(r.value.log, moment, sheet, process)
                                   == LoggedAt(wb.log, moment, sheet, process)[(row, col) := (CellAt(wb.sheets[sheet], row, col), newVal)])
              && (forall m, s, p :: (m, s, p) != (moment, sheet, process) ==>
                    LoggedAt(r.value.log, m, s, p) == LoggedAt(wb.log, m, s, p))
  {
    if sheet !in wb.sheets then Err(UnknownSheet(sheet))
    else
      var t := wb.sheets[sheet];
      if !InBounds(t, row, col) then Err(OutOfBounds(row, col))
      else
        var previous := CellAt(t, row, col);
        var log' := match wb.log
          case None => None
          case Some(l) =>
            Some(l.(entries := LogManager.AppendLogs(l.entries, moment, sheet, process,
                                                    map[(row, col) := (previous, newVal)])));
        LogUpdateFrame(wb.log, log', moment, sheet, process, (row, col), (previous, newVal));
        Ok(wb.(sheets := wb.sheets[sheet := SetCell(t, row, col, newVal)], log := log'))
  }

  /** The log side of a cell update: one coordinate merged into one bucket, nothing else touched. */
  lemma LogUpdateFrame(log: Option<AttachedLog>, log': Option<AttachedLog>, moment: string, sheet: string,
                       process: string, at: Coord, change: Change)
    requires log.None? ==> log'.None?
    requires log.Some? ==> log' == Some(log.value.(entries := LogManager.AppendLogs(log.value.entries, moment, sheet, process, map[at := change])))
    ensures log.Some? ==> LoggedAt(log', moment, sheet, process) == LoggedAt(log, moment, sheet, process)[at := change]
    ensures forall m, s, p :: (m, s, p) != (moment, sheet, process) ==> LoggedAt(log', m, s, p) == LoggedAt(log, m, s, p)
  {
    if log.Some? {
      var b := LoggedAt(log, moment, sheet, process);
      assert b + map[at := change] == b[at := change];
      forall m, s, p | (m, s, p) != (moment, sheet, process)
        ensures LoggedAt(log', m, s, p) == LoggedAt(log, m, s, p)
      {
        LogManager.AppendLogsFrame(log.value.entries, moment, sheet, process, map[at := change], m, s, p);
      }
    }
  }

  /** With distinct column names, an update leaves every other cell of the sheet as it was. */
  lemma UpdateCellOtherCells(wb: Workbook, moment: string, process: string, sheet: string,
                             row: int, col: int, newVal: Cell, i: nat, j: nat)
    requires UpdateCell(wb, moment, process, sheet, row, col, newVal).Ok?
    requires Distinct(wb.sheets[sheet].columns)
    requires InBounds(wb.sheets[sheet], i, j) && (i, j) != (row, col)
    ensures var wb' := UpdateCell(wb, moment, process, sheet, row, col, newVal).value;
            CellAt(wb'.sheets[sheet], i, j) == CellAt(wb.sheets[sheet], i, j)
  {
    var t := wb.sheets[sheet];
    assert UpdateCell(wb, moment, process, sheet, row, col, newVal).value.sheets[sheet] == SetCell(t, row, col, newVal);
    SetCellOthersUnchanged(t, row, col, newVal, i, j);
  }

  /**
   Two updates of different cells of one sheet, by one process, in the same
   second, end up as ONE log entry holding both `(previous, new)` pairs.
   */
  lemma UpdateCellTwiceMerges(wb: Workbook, moment: string, process: string, sheet: string,
                              r1: int, c1: int, v1: Cell, r2: int, c2: int, v2: Cell)
    requires wb.log.Some?
    requires UpdateCell(wb, moment, process, sheet, r1, c1, v1).Ok?
    requires Distinct(wb.sheets[sheet].columns)
    requires InBounds(wb.sheets[sheet], r2, c2) && (r1, c1) != (r2, c2)
    ensures var wb1 := UpdateCell(wb, moment, process, sheet, r1, c1, v1).value;
            var r := UpdateCell(wb1, moment, process, sheet, r2, c2, v2);
            && r.Ok?
            && var logged := LoggedAt(r.value.log, moment, sheet, process);
              && logged[(r1, c1)] == (CellAt(wb.sheets[sheet], r1, c1), v1)
              && logged[(r2, c2)] == (CellAt(wb.sheets[sheet], r2, c2), v2)
              && logged.Keys == LoggedAt(wb.log, moment, sheet, process).Keys + {(r1, c1), (r2, c2)}
  {
    var wb1 := UpdateCell(wb, moment, process, sheet, r1, c1, v1).value;
    var r := UpdateCell(wb1, moment, process, sheet, r2, c2, v2);
    if r.Ok? {
      var t := wb.sheets[sheet];
      var before := LoggedAt(wb.log, moment, sheet, process);
      var middle := LoggedAt(wb1.log, moment, sheet, process);
      var after := LoggedAt(r.value.log, moment, sheet, process);
      assert middle == before[(r1, c1) := (CellAt(t, r1, c1), v1)];
      UpdateCellOtherCells(wb, moment, process, sheet, r1, c1, v1, r2, c2);
      assert after == middle[(r2, c2) := (CellAt(t, r2, c2), v2)];
    }
  }

  // ---- append_row ----

  /**
   `append_row(sheet, props)` as written: `pd.DataFrame({k: [v] for k, v in
   props.items()})` has no rows when `props` is empty, so concatenating it
   adds nothing; otherwise the row is appended as `AppendRecord` describes.
   The sheet is looked up without a check, so an unknown name raises KeyError.
   */
  function AppendRowAsWritten(wb: Workbook, sheet: string, props: Dict): (r: Result<Workbook, Error>)
    ensures sheet !in wb.sheets ==> r == Err(UnknownSheet(sheet))
    ensures sheet in wb.sheets && |props| == 0 ==> r == Ok(wb)
    ensures sheet in wb.sheets && |props| > 0 ==> r == AppendRow(wb, sheet, props)
  {
    if sheet !in wb.sheets then Err(UnknownSheet(sheet))
    else if |props| == 0 then Ok(wb)
    else Ok(wb.(sheets := wb.sheets[sheet := AppendRecord(wb.sheets[sheet], props)]))
  }

  /** The source appends no row for an empty dict: the row count stays where it was. */
  lemma AppendRowAsWrittenDropsEmptyRow(wb: Workbook, sheet: string)
    requires sheet in wb.sheets
    ensures AppendRowAsWritten(wb, sheet, []).Ok?
    ensures |AppendRowAsWritten(wb, sheet, []).value.sheets[sheet].rows| == |wb.sheets[sheet].rows|
  {
  }

  /**
   `append_row(sheet, props)` as intended: the sheet gains exactly one row,
   placed last, holding `props`' values (missing where `props` has no key);
   keys that are not yet columns become new columns, read as missing in the
   earlier rows, which otherwise keep their values. Appends are not logged.
   */
  function AppendRow(wb: Workbook, sheet: string, props: Dict): (r: Result<Workbook, Error>)
    ensures sheet !in wb.sheets ==> r == Err(UnknownSheet(sheet))
    ensures sheet in wb.sheets ==>
              && r.Ok?
              && r.value.sheets.Keys == wb.sheets.Keys
              && (forall n :: n in wb.sheets && n != sheet ==> r.value.sheets[n] == wb.sheets[n])
              && r.value.log == wb.log && r.value.props == wb.props && r.value.readPath == wb.readPath
              && var t, t' := wb.sheets[sheet], r.value.sheets[sheet];
              && |t'.rows| == |t.rows| + 1
              && t'.columns == AddNew(t.columns, Keys(props))
              && (forall c :: c in t'.columns <==> c in t.columns || c in Keys(props))
              && (forall i, c :: 0 <= i < |t.rows| && c in t'.columns ==> Get(t'.rows[i], c) == Get(t.rows[i], c))
              && (forall c :: c in t'.columns ==> Get(t'.rows[|t.rows|], c) == ValueOf(props, c))
              && (Wf(t) ==> Wf(t'))
  {
    if sheet !in wb.sheets then Err(UnknownSheet(sheet))
    else Ok(wb.(sheets := wb.sheets[sheet := AppendRecord(wb.sheets[sheet], props)]))
  }

  // ---- row_follows_condition ----

  /**
   `row_follows_condition(row, conditions)`: walks the conditions in order,
   raising KeyError at the first name the row lacks and answering false at the
   first value that differs under pandas' equality.
   */
  function RowFollowsCondition(row: Row, conditions: Dict): (r: Result<bool, Error>)
    ensures r == Ok(true) ==> Satisfies(row, conditions)
    ensures r.Err? ==> r.error.MissingKey? && r.error.key in Keys(conditions) && r.error.key !in row
    decreases |conditions|
  {
    if |conditions| == 0 then Ok(true)
    else
      var (name, value) := conditions[0];
      if name !in row then Err(MissingKey(name))
      else if !Matches(row[name], value) then Ok(false)
      else
        var rest := RowFollowsCondition(row, conditions[1..]);
        assert rest == Ok(true) ==> Satisfies(row, conditions) by {
          if rest == Ok(true) {
            forall i | 0 <= i < |conditions| ensures Matches(Get(row, conditions[i].0), conditions[i].1) {
              if i > 0 { assert conditions[i] == conditions[1..][i - 1]; }
            }
          }
        }
        assert forall k :: k in Keys(conditions[1..]) ==> k in Keys(conditions);
        rest
  }

  /**
   The KeyError path: when every condition before position `i` is present and
   matches, and the row lacks the column named at `i`, the loop raises for
   exactly that name.
   */
  lemma {:induction false} RowFollowsConditionRaises(row: Row, conditions: Dict, i: nat)
    requires i < |conditions| && conditions[i].0 !in row
    requires forall j :: 0 <= j < i ==> conditions[j].0 in row && Matches(row[conditions[j].0], conditions[j].1)
    ensures RowFollowsCondition(row, conditions) == Err(MissingKey(conditions[i].0))
    decreases i
  {
    if i > 0 {
      var rest := conditions[1..];
      assert forall j :: 0 <= j < i - 1 ==> rest[j] == conditions[j + 1];
      RowFollowsConditionRaises(row, rest, i - 1);
    }
  }

  /**
   On a row that has every condition column (any row of a well-formed sheet
   whose conditions passed validation), the loop agrees with the declarative
   filter used by `get_entries`.
   */
  lemma {:induction false} RowFollowsConditionAgrees(row: Row, conditions: Dict)
    requires forall i :: 0 <= i < |conditions| ==> conditions[i].0 in row
    ensures RowFollowsCondition(row, conditions) == Ok(Satisfies(row, conditions))
    decreases |conditions|
  {
    if |conditions| > 0 {
      var rest := conditions[1..];
      assert forall i :: 0 <= i < |rest| ==> rest[i] == conditions[i + 1];
      RowFollowsConditionAgrees(row, rest);
      if Matches(row[conditions[0].0], conditions[0].1) {
        assert Satisfies(row, conditions) == Satisfies(row, rest) by {
          if Satisfies(row, rest) {
            forall i | 0 <= i < |conditions| ensures Matches(Get(row, conditions[i].0), conditions[i].1) {
              if i > 0 { assert conditions[i] == rest[i - 1]; }
            }
          }
        }
      }
    }
  }

  /**
   For any row, the loop answers true exactly when the row meets every
   condition: a missing column reads as a missing value, which matches
   nothing, so such a row neither satisfies the conditions nor passes.
   */
  lemma RowFollowsConditionTrueIff(row: Row, conditions: Dict)
    ensures RowFollowsCondition(row, conditions) == Ok(true) <==> Satisfies(row, conditions)
  {
    if Satisfies(row, conditions) {
      forall i | 0 <= i < |conditions| ensures conditions[i].0 in row {
        assert Matches(Get(row, conditions[i].0), conditions[i].1);
      }
      RowFollowsConditionAgrees(row, conditions);
    }
  }

  // ---- get_entries ----

  /**
   The boolean mask pandas builds: start all true, then for each condition
   `mask &= (frame[column] == value)`.
   */
  method ComputeMask(rows: seq<Row>, conditions: Dict) returns (mask: seq<bool>)
    ensures |mask| == |rows|
    ensures forall i :: 0 <= i < |rows| ==> (mask[i] <==> Satisfies(rows[i], conditions))
  {
    mask := seq(|rows|, i => true);
    var k := 0;
    while k < |conditions|
      invariant 0 <= k <= |conditions|
      invariant |mask| == |rows|
      invariant forall i :: 0 <= i < |rows| ==> (mask[i] <==> Satisfies(rows[i], conditions[..k]))
    {
      var (column, value) := conditions[k];
      mask := seq(|rows|, i requires 0 <= i < |rows| && |mask| == |rows| =>
                    mask[i] && Matches(Get(rows[i], column), value));
      assert forall i :: 0 <= i < k ==> conditions[..k + 1][i] == conditions[..k][i];
      k := k + 1;
    }
    assert conditions[..k] == conditions;
  }

  /** `frame[mask]`: the rows whose mask entry is set, in order. */
  method SelectRows(rows: seq<Row>, mask: seq<bool>, ghost conditions: Dict) returns (hits: seq<Row>)
    requires |mask| == |rows|
    requires forall i :: 0 <= i < |rows| ==> (mask[i] <==> Satisfies(rows[i], conditions))
    ensures hits == MatchingRows(rows, conditions)
  {
    hits := [];
    var i := 0;
    while i < |rows|
      invariant 0 <= i <= |rows|
      invariant hits == MatchingRows(rows[..i], conditions)
    {
      assert rows[..i + 1][..i] == rows[..i];
      if mask[i] {
        hits := hits + [rows[i]];
      }
      i := i + 1;
    }
    assert rows[..i] == rows;
  }

  /**
   `get_entries(sheet, conditions, return_all)`: an unknown sheet raises; then
   every condition name that is not a column is reported at once, before any
   filtering; otherwise the rows meeting all conditions are selected and the
   answer is `None` when the selection is an empty frame (no rows, or a sheet
   without columns), else the first of them, or all of them in table order
   when `return_all` is set.
   */
  method GetEntries(wb: Workbook, sheet: string, conditions: Dict, returnAll: bool)
    returns (r: Result<Entries, Error>)
    ensures sheet !in wb.sheets ==> r == Err(UnknownSheet(sheet))
    ensures sheet in wb.sheets && InvalidColumns(conditions, wb.sheets[sheet].columns) != [] ==>
              r == Err(InvalidColumnNames(InvalidColumns(conditions, wb.sheets[sheet].columns)))
    ensures sheet in wb.sheets && InvalidColumns(conditions, wb.sheets[sheet].columns) == [] ==>
              var rows := wb.sheets[sheet].rows;
              && r.Ok?
              && (r.value == NoMatch <==>
                    |wb.sheets[sheet].columns| == 0 || forall i :: 0 <= i < |rows| ==> !Satisfies(rows[i], conditions))
              && (r.value != NoMatch && returnAll ==> r.value == Many(MatchingRows(rows, conditions)))
              && (r.value != NoMatch && !returnAll ==>
                    r.value.One? && exists i :: IsFirstMatch(rows, conditions, i) && r.value.row == rows[i])
  {
    if sheet !in wb.sheets {
      return Err(UnknownSheet(sheet));
    }
    var t := wb.sheets[sheet];
    var invalid := InvalidColumns(conditions, t.columns);
    if invalid != [] {
      return Err(InvalidColumnNames(invalid));
    }
    var mask := ComputeMask(t.rows, conditions);
    var hits := SelectRows(t.rows, mask, conditions);
    if IsEmpty(Table(t.columns, hits)) {
      return Ok(NoMatch);
    }
    if returnAll {
      r := Ok(Many(hits));
    } else {
      MatchingRowsHead(t.rows, conditions);
      r := Ok(One(hits[0]));
    }
  }

  // ---- save_changes ----

  /** What `save_changes(write_path)` does, with the writing itself left to the caller. */
  datatype SavePlan = SavePlan(
    overwriteWarning: bool,          // the target is the file the workbook was read from
    emptyNotice: bool,               // every sheet is an empty frame
    written: map<string, Table>,     // the sheets written to the target, one per sheet
    logWritten: Option<AttachedLog>, // the change log saved to its own file
    propertiesTarget: string)        // where the property store applies its changes

  /**
   `save_changes(write_path)`: warns when overwriting the source file and
   prints a notice when every sheet is empty, but writes every sheet either
   way, then saves the change log (when attached) and the properties.
   */
  function SaveChanges(wb: Workbook, writePath: string): (plan: SavePlan)
    ensures plan.overwriteWarning <==> wb.readPath == Some(writePath)
    ensures plan.emptyNotice <==> forall n :: n in wb.sheets ==> IsEmpty(wb.sheets[n])
    ensures plan.written == wb.sheets
    ensures plan.logWritten == wb.log
    ensures plan.propertiesTarget == writePath
  {
    SavePlan(wb.readPath == Some(writePath),
             forall n | n in wb.sheets :: IsEmpty(wb.sheets[n]),
             wb.sheets, wb.log, writePath)
  }

  /**
   After a row with at least one key is appended, that sheet has a row and a
   column, so saving no longer reports an all-empty workbook.
   */
  lemma AppendRowClearsEmptyNotice(wb: Workbook, sheet: string, props: Dict, writePath: string)
    requires sheet in wb.sheets && |props| > 0
    ensures AppendRow(wb, sheet, props).Ok?
    ensures !SaveChanges(AppendRow(wb, sheet, props).value, writePath).emptyNotice
  {
    var wb' := AppendRow(wb, sheet, props).value;
    assert props[0].0 in Keys(props);
    assert props[0].0 in wb'.sheets[sheet].columns;
    assert !IsEmpty(wb'.sheets[sheet]);
  }

  // ---- a worked example ----

  /** The two row dicts of the "People" sheet. */
  function PeopleRecords(): seq<Dict> {
    [[("id", Num(1.0)), ("name", Str("Ann"))], [("id", Num(2.0)), ("name", Str("Bo"))]]
  }

  /** The "People" sheet built from its row dicts. */
  function People(): Table {
    FromRecords(PeopleRecords())
  }

  lemma PeopleKeys()
    ensures Keys(PeopleRecords()[0]) == ["id", "name"]
    ensures Keys(PeopleRecords()[1]) == ["id", "name"]
  {
  }

  lemma PeopleColumns()
    ensures UnionKeys(PeopleRecords()) == ["id", "name"]
  {
    PeopleKeys();
    UnionKeysUniform(PeopleRecords(), ["id", "name"]);
  }

  lemma BoValues()
    ensures ValueOf(PeopleRecords()[1], "id") == Num(2.0)
    ensures ValueOf(PeopleRecords()[1], "name") == Str("Bo")
  {
    var bo := PeopleRecords()[1];
    assert bo[1..] == [("name", Str("Bo"))];
  }

  lemma PeopleShape()
    ensures People().columns == ["id", "name"] && |People().rows| == 2
    ensures Get(People().rows[1], "id") == Num(2.0) && Get(People().rows[1], "name") == Str("Bo")
  {
    PeopleColumns();
    BoValues();
  }

  /**
   Sheet "People" holds `{"id": 1, "name": "Ann"}` and `{"id": 2, "name": "Bo"}`;
   process "Fix" sets cell (1, 1) to "Beau". Row 1 then reads id 2 and name
   "Beau", and the log bucket for that second, sheet and process is exactly
   `{(1, 1): ("Bo", "Beau")}`.
   */
  lemma PeopleScenario(moment: string)
    ensures var wb := Workbook(None, map["People" := People()], map["People" := NoProperties],
                               Some(AttachedLog("people_workbook_logs.json", map[])));
            var r := UpdateCell(wb, moment, "Fix", "People", 1, 1, Str("Beau"));
            && r.Ok?
            && Get(r.value.sheets["People"].rows[1], "id") == Num(2.0)
            && Get(r.value.sheets["People"].rows[1], "name") == Str("Beau")
            && LoggedAt(r.value.log, moment, "People", "Fix") == map[(1, 1) := (Str("Bo"), Str("Beau"))]
  {
    PeopleShape();
    FixBo(People(), moment);
  }

  /** The scenario's update on any table of the "People" shape. */
  lemma FixBo(t: Table, moment: string)
    requires t.columns == ["id", "name"] && |t.rows| == 2
    requires Get(t.rows[1], "id") == Num(2.0) && Get(t.rows[1], "name") == Str("Bo")
    ensures var wb := Workbook(None, map["People" := t], map["People" := NoProperties],
                               Some(AttachedLog("people_workbook_logs.json", map[])));
            var r := UpdateCell(wb, moment, "Fix", "People", 1, 1, Str("Beau"));
            && r.Ok?
            && Get(r.value.sheets["People"].rows[1], "id") == Num(2.0)
            && Get(r.value.sheets["People"].rows[1], "name") == Str("Beau")
            && LoggedAt(r.value.log, moment, "People", "Fix") == map[(1, 1) := (Str("Bo"), Str("Beau"))]
  {
    var wb := Workbook(None, map["People" := t], map["People" := NoProperties],
                       Some(AttachedLog("people_workbook_logs.json", map[])));
    assert CellAt(t, 1, 1) == Str("Bo");
    assert LoggedAt(wb.log, moment, "People", "Fix") == map[];
    assert "id" != "name";
  }
}
